=== FILE: README.md ===
# Working-hours allocation, modelled in Dafny

This project models the core of the `working-hour` tool. The tool takes an
inclusive date range and a weekly quota of hours. It expands the range into
consecutive calendar days and gives each Monday-to-Friday day a fifth of the
quota and each Saturday and Sunday nothing. Each value is wrapped in a
`WorkingHours` record whose hours may not be negative. The records are copied
into transfer records and handed to the configured output strategy: a
calculator (sum mode, which adds the hours up) or a formatter (JSON mode).
A small keyed store of records is modelled as well.

Modelling choices:

- **Days.** A date is an integer day ordinal, counted from 1970-01-01. The
  loop step `setDate(getDate() + 1)` is `d + 1`. The weekday follows the
  `getDay` convention, 0 = Sunday to 6 = Saturday: `Weekday(d) == (d + 4) % 7`,
  since 1970-01-01 was a Thursday. Dafny's `%` is Euclidean, so days before
  1970 also get the right weekday.
- **Hours.** Hours are `real`, so `hoursPerWeek / 5` is exact.
- **Errors.** Thrown errors become `Result` failures with three kinds:
  - `InvalidRange`: the start is after the end;
  - `NegativeHours`: a record would carry negative hours;
  - `NoCalculatorOrFormatter`: the service has neither strategy.
- **Strategies.** The calculator and the formatter are optional functions
  that the caller supplies. The sum calculator is modelled exactly; the
  formatter is opaque.
- **Repository.** The store is an immutable `map<Day, WorkingHours>`. `Save`
  returns the updated store.

Module layout, one file per component:

- `wrappers.dfy`: `Option`, `Result` and the error kinds (no source class).
- `calendar.dfy`: day ordinals and weekdays, the `getDay` rule on ordinals
  (no source class).
- `date_range.dfy`: `DateRange`.
- `working_hours.dfy`: `WorkingHours` (module `Hours`) and the transfer
  record of `WorkingHoursDTO` (module `Dtos`).
- `working_hours_calculator.dfy`: the per-day allocation of
  `WorkingHoursCalculator` (module `HoursCalculator`) and the count of working
  days in a stretch of days (module `WorkingDays`, no source class).
- `sum_calculator.dfy`: `SumCalculator`.
- `calculate_working_hours_service.dfy`: `CalculateWorkingHoursService`.
- `working_hours_repository.dfy`: `WorkingHoursRepository`.

## Behaviour worth knowing

- **Negative quota.** Nothing checks the weekly quota before the records are
  built. A negative quota fails only through the `WorkingHours`
  constructor.
  - A negative quota therefore fails exactly when the range holds a weekday.
  - A weekend-only range succeeds with all-zero records.
  - See `HoursCalculator.CalculateDays`, `HoursCalculator.WeekendOnlyRangeSucceeds`
    and `Service.ScheduleFailure`.
- **Both strategies configured.** When both strategies are given, the
  calculator is used and the formatter is never consulted
  (`Service.CalculatorWins`).
- **Error order.** The errors are ordered as the code raises them:
  1. the range error, before any calculation;
  2. the negative-hours error, before any strategy is consulted;
  3. the missing-strategy error last.

## Model

| member | source | states |
|---|---|---|
| DateRanges.NewDateRange | src/Domain/Service/ValueObject/DateRange.js:6-10 | Construction fails, with the range error, exactly when start > end, so start == end is accepted. A constructed range keeps both endpoints unchanged and satisfies start <= end. |
| DateRanges.DaysFrom | src/Domain/Service/ValueObject/DateRange.js:15-17 | The day loop from `date` to `end` produces one day per step: `max(0, end - date + 1)` days, the i-th being `date + i`. |
| DateRanges.GetDays | src/Domain/Service/ValueObject/DateRange.js:13-19 | For a valid range: `end - start + 1` days, the first is start and the last is end, and consecutive days differ by exactly one. Every day lies in [start, end], and a day is in the list exactly when it lies in [start, end]. |
| DateRanges.DaysFromCovers | src/Domain/Service/ValueObject/DateRange.js:15 | Every day between the loop's start and end is visited. |
| DateRanges.DaysStrictlyIncreasing | src/Domain/Service/ValueObject/DateRange.js:15 | The expanded days are strictly increasing, so there are no duplicates. |
| DateRanges.SingleDayRange | src/Domain/Service/ValueObject/DateRange.js:6-17 | A same-day range is accepted and expands to exactly that one day. |
| DateRanges.DaysSplit | src/Domain/Service/ValueObject/DateRange.js:15-17 | Expanding a range equals expanding its two halves one after the other, for any split point. |
| Calendar.Weekday | src/Domain/Service/WorkingHoursCalculator.js:10 | The `getDay` value of a day lies in 0..6. |
| Calendar.NextWeekday | src/Domain/Service/WorkingHoursCalculator.js:10 | The next calendar day's weekday is one more, wrapping from Saturday (6) to Sunday (0). |
| Calendar.WeekdayAfter | src/Domain/Service/WorkingHoursCalculator.js:10 | The weekday k days later (0 <= k < 7) is the weekday plus k, less 7 when that passes Saturday. |
| Hours.NewWorkingHours | src/Domain/Model/WorkingHours.js:6-19 | Construction succeeds exactly when hours >= 0, and otherwise fails with the negative-hours error. A constructed record satisfies hours >= 0, and `GetDate`/`GetHours` return the given date and hours. |
| Dtos.ToDtos | src/Application/CalculateWorkingHoursService.js:16 | The transfer records keep the length and, element by element and in order, the date and hours of the records. |
| HoursCalculator.DailyHours | src/Domain/Service/WorkingHoursCalculator.js:9-13 | 0 on Saturday or Sunday; on Monday to Friday a share of which five make the weekly quota (hoursPerWeek / 5); for a quota >= 0 the share lies between 0 and the quota. |
| HoursCalculator.CalculateDays | src/Domain/Service/WorkingHoursCalculator.js:8-16 | Over any list of days, the calculation fails exactly when the quota is negative and some day is a weekday, and then with the negative-hours error. On success, record i carries day i, with 0 hours on Saturday or Sunday and quota/5 otherwise, and every record is valid. |
| HoursCalculator.Calculate | src/Domain/Service/WorkingHoursCalculator.js:4-19 | Over a range, there is one record per day of `getDays()`, in order, with date start + i, following the weekend/weekday rule. It fails, with the negative-hours error, exactly when the quota is negative and some day of the range is a weekday. |
| HoursCalculator.RangeHasWorkingDay | src/Domain/Service/WorkingHoursCalculator.js:6-8 | The expanded days hold a weekday exactly when some day between the endpoints is a weekday. |
| HoursCalculator.NonNegativeQuotaSucceeds | src/Domain/Service/WorkingHoursCalculator.js:9-15 | A quota >= 0 always succeeds, and every record has hours >= 0. |
| HoursCalculator.ZeroQuotaAllZero | src/Domain/Service/WorkingHoursCalculator.js:9-13 | A zero quota succeeds with every record at 0 hours. |
| HoursCalculator.WeekendOnlyRangeSucceeds | src/Domain/Service/WorkingHoursCalculator.js:10-15 | A range of only Saturdays and Sundays succeeds with all-zero records, even with a negative quota. |
| HoursCalculator.SaturdayAlone | src/Domain/Service/WorkingHoursCalculator.js:10-15 | A single Saturday yields exactly one record, that Saturday at 0 hours, whatever the quota. |
| WorkingDays.WeekHasFiveWorkingDays | src/Domain/Service/WorkingHoursCalculator.js:10 | Any seven consecutive days hold exactly five days that are neither Saturday nor Sunday. |
| WorkingDays.WeeksHaveFiveWorkingDaysEach | src/Domain/Service/WorkingHoursCalculator.js:10 | `weeks` whole consecutive weeks hold exactly `5 * weeks` working days. |
| SumCalculator.Calculate | src/Application/Calculator/SumCalculator.js:4-6 | The left fold ((0 + h1) + …) + hn over the records' hours, peeling the last record; its properties are stated by the `SumCalculator.Calculate*` lemmas below. |
| SumCalculator.CalculateEmpty | src/Application/Calculator/SumCalculator.js:5 | The sum of no records is the fold's initial value, 0. |
| SumCalculator.CalculateIsSumRight | src/Application/Calculator/SumCalculator.js:5 | The left fold `((0 + h1) + h2) + … + hn` equals the independently defined right-nested sum of the hours. |
| SumCalculator.CalculateAppend | src/Application/Calculator/SumCalculator.js:5 | The sum of a concatenation is the sum of the parts. |
| SumCalculator.CalculateRemove | src/Application/Calculator/SumCalculator.js:5 | Taking any one record out lowers the sum by exactly that record's hours, and lowers the multiset of records by that record. |
| SumCalculator.CalculatePermutation | src/Application/Calculator/SumCalculator.js:5 | Two lists of records that are permutations of each other have the same sum. |
| SumCalculator.CalculateNonNegative | src/Application/Calculator/SumCalculator.js:5 | If every record has hours >= 0, the sum is >= 0. |
| Service.Schedule | src/Application/CalculateWorkingHoursService.js:13-16 | Range construction, calculation and copying: start > end fails with the range error before anything else. On success there are `end - start + 1` transfer records, the i-th dated start + i, at quota/5 on a weekday and 0 on a weekend. |
| Service.ScheduleFailure | src/Application/CalculateWorkingHoursService.js:13-16 | On a valid range the pipeline fails exactly when the quota is negative and the range holds a weekday, and then with the negative-hours error. |
| Service.ScheduleSucceeds | src/Application/CalculateWorkingHoursService.js:13-16 | A valid range with a quota >= 0 always yields transfer records. |
| Service.Dispatch | src/Application/CalculateWorkingHoursService.js:18-25 | A calculator, if present, gives the answer. Otherwise a formatter, if present, gives it. Otherwise the call fails with the configuration error, and it fails exactly in that case. |
| Service.Calculate | src/Application/CalculateWorkingHoursService.js:12-26 | start > end fails with the range error whatever is configured. A success implies a valid range and a configured strategy. |
| Service.NegativeQuotaFailsFirst | src/Application/CalculateWorkingHoursService.js:13-24 | A negative quota over a range holding a weekday fails with the negative-hours error before any strategy is looked at, even with no strategy at all. |
| Service.CalculatorWins | src/Application/CalculateWorkingHoursService.js:18-20 | With a calculator configured, the formatter makes no difference, and the answer is the calculator applied to the transfer records. |
| Service.FormatterWithoutCalculator | src/Application/CalculateWorkingHoursService.js:21-22 | With no calculator and a formatter, the answer is the formatter applied to the transfer records. |
| Service.NoStrategyAlwaysFails | src/Application/CalculateWorkingHoursService.js:23-24 | With neither strategy every call fails, and after a successful calculation the failure is the configuration error. |
| Service.SumOfAllocation | src/Application/CalculateWorkingHoursService.js:15-20 | Records that get a daily share q on weekdays and 0 on weekends sum to q added once per weekday among their dates. |
| Service.ScheduleFollowsRule | src/Application/CalculateWorkingHoursService.js:15-16 | The transfer records of a valid calculation carry exactly the days of the range and follow the weekday rule with share quota/5. |
| Service.ScheduleTotal | src/Application/CalculateWorkingHoursService.js:15-16 | The transfer records of a valid calculation sum to quota/5 added once per working day of the range. |
| Service.SumModeSumsSchedule | src/Application/CalculateWorkingHoursService.js:15-20 | In sum mode the answer is the sum of the transfer records. |
| Service.SumModeTotal | src/Application/CalculateWorkingHoursService.js:15-20 | In sum mode the answer is quota/5 added once per working day of the range. |
| Service.SumModeZeroQuota | src/Application/CalculateWorkingHoursService.js:15-20 | In sum mode a zero quota answers 0 for every valid range. |
| Service.SumModeWeek | src/Application/CalculateWorkingHoursService.js:15-20 | In sum mode any seven consecutive days (e.g. Monday to Sunday) with a quota h >= 0 answer exactly h. |
| Service.SumModeWeeks | src/Application/CalculateWorkingHoursService.js:15-20 | In sum mode `weeks` whole weeks with quota h >= 0 answer h added once per week. |
| Service.SumModeWeeksProduct | src/Application/CalculateWorkingHoursService.js:15-20 | In sum mode `weeks` whole weeks with quota h >= 0 answer exactly `weeks · h`. |
| Service.FirstWeekOf2024 | src/Application/CalculateWorkingHoursService.js:12-26 | 2024-01-01 is a Monday. At 40 hours per week the week from 2024-01-01 to 2024-01-07 yields 8, 8, 8, 8, 8, 0, 0 and sums to 40. |
| Service.SingleWeekdayAt35 | src/Application/CalculateWorkingHoursService.js:13-16 | A one-day range on a weekday at 35 hours per week yields a single record of 7 hours. |
| Repository.NewRepository | src/Infrastructure/Repository/WorkingHoursRepository.js:6-9 | A new repository finds nothing for any date. |
| Repository.FindByDate | src/Infrastructure/Repository/WorkingHoursRepository.js:15-17 | A lookup finds a record exactly when one is stored under that date, and then it is the stored one. |
| Repository.Save | src/Infrastructure/Repository/WorkingHoursRepository.js:11-13 | After saving, the record's date finds that record, and every other date finds what it found before. |
| Repository.LastWriteWins | src/Infrastructure/Repository/WorkingHoursRepository.js:11-17 | Saving two records with the same date keeps the later one, and other dates are unaffected. |
| Repository.SaveIdempotent | src/Infrastructure/Repository/WorkingHoursRepository.js:11-13 | Saving the same record twice is the same as saving it once. |
| Repository.SavesOfDifferentDatesCommute | src/Infrastructure/Repository/WorkingHoursRepository.js:11-13 | Saving records with different dates gives the same store in either order. |

## Left out

- `src/main.js`, the command-line front end, is not part of this model. It parses
  arguments, maps `json`/`sum` to a formatter or calculator, prints and exits.
  It passes the quota on as the argument string. That string reaches the
  calculator and is coerced to a number by the division
  `hoursPerWeek / 5` (src/Domain/Service/WorkingHoursCalculator.js:9).
  The sum/JSON choice appears here only as the pair of optional strategies
  (`Service.SumService` is sum mode).
- A non-numeric quota (for example `"abc"`) yields NaN hours on every weekday
  rather than an error. NaN passes the constructor's check, because it is of
  type number and `NaN < 0` is false. The quota is a `real` here, which cannot
  express NaN, so this path is not modelled.
- The JSON formatter (`JSON.stringify`) is an opaque function argument.
  Nothing is stated about its text.
- JS `Date` semantics are not modelled:
  - string parsing in the service;
  - the time zone interplay between UTC parsing and local `getDay`;
  - daylight-saving transitions and time-of-day parts.
  Days are whole ordinals instead.
- The `instanceof Date` checks are not modelled. An `Invalid Date` passes
  them, and the code raises no error for it, so the model has no
  malformed-date error.
- The ISO-string key of the repository is the day ordinal itself. Two
  records of the same calendar day share a key, as they do in the code for
  midnight dates.
- IEEE-754 arithmetic is not modelled: `hoursPerWeek / 5` and the sum are
  exact over `real`, with no rounding or non-associativity. The permutation
  result of `SumCalculator.CalculatePermutation` holds for reals and not
  necessarily for floating point.
- The repository field of the service is not modelled. The service stores
  it but `calculate` never uses it, so the service datatype holds only the
  two strategies.
- `Employee` is not modelled: the core never uses it.
- The marker interfaces (`ICalculator`, `IFormatter`,
  `IWorkingHoursRepository`) are not modelled. They carry no behaviour and
  their files are not part of this model.
- The `typeof hours !== 'number'` check is not modelled: hours are always
  `real` here.
- Service.Calculate: its own contract states only the range error and when
  success is possible. The remaining cases are stated by
  `Service.NegativeQuotaFailsFirst`, `Service.CalculatorWins`,
  `Service.FormatterWithoutCalculator` and `Service.NoStrategyAlwaysFails`,
  which are about the same function.

=== FILE: calculate_working_hours_service.dfy ===
/** The application service: builds the date range, runs the per-day
    calculation, copies the records into transfer records and hands them to
    the configured output strategy — the calculator if there is one, else the
    formatter, else it raises a configuration error. */
module Service {
  import opened Wrappers
  import opened Errors
  import opened Calendar
  import opened DateRanges
  import opened Dtos
  import HoursCalculator
  import opened WorkingDays
  import SumCalculator

  /** What the service returns: a calculator's number or a formatter's text. */
  datatype Output = Number(value: real) | Text(text: string)

  /** The output strategies, supplied by the caller and opaque here. */
  type Calculator = seq<WorkingHoursDto> -> real
  type Formatter = seq<WorkingHoursDto> -> string

  datatype CalculateWorkingHoursService =
    CalculateWorkingHoursService(calculator: Option<Calculator>, formatter: Option<Formatter>)

  /** The service as the command line builds it in sum mode. */
  function SumService(): CalculateWorkingHoursService {
    CalculateWorkingHoursService(Some(SumCalculator.Calculate), None)
  }

  /** Range construction, per-day calculation and the copy into transfer
      records. A start after the end fails first; a success holds one record
      per day of the range, in order, with a fifth of the quota on weekdays
      and zero on weekends. When it fails on a valid range is stated by
      `ScheduleFailure`. */
  function Schedule(startDate: Day, endDate: Day, hoursPerWeek: real): (r: Result<seq<WorkingHoursDto>, Error>)
    ensures startDate > endDate ==> r == Failure(InvalidRange)
    ensures r.Success? ==> |r.value| == endDate - startDate + 1
    ensures r.Success? ==> forall i :: 0 <= i < |r.value| ==>
      && r.value[i].date == startDate + i
      && (IsWeekend(startDate + i) ==> r.value[i].hours == 0.0)
      && (!IsWeekend(startDate + i) ==> r.value[i].hours == hoursPerWeek / 5.0)
  {
    var range :- NewDateRange(startDate, endDate);
    var ws :- HoursCalculator.Calculate(range, hoursPerWeek);
    Success(ToDtos(ws))
  }

  /** On a valid range the schedule fails exactly when the quota is negative
      and some day of the range is a weekday, and then with the record's
      negative-hours error. */
  lemma ScheduleFailure(startDate: Day, endDate: Day, hoursPerWeek: real)
    requires startDate <= endDate
    ensures Schedule(startDate, endDate, hoursPerWeek).Failure?
        <==> hoursPerWeek < 0.0 && exists d :: startDate <= d <= endDate && !IsWeekend(d)
    ensures Schedule(startDate, endDate, hoursPerWeek).Failure? ==>
      Schedule(startDate, endDate, hoursPerWeek).error == NegativeHours
  {
    assert NewDateRange(startDate, endDate) == Success(DateRange(startDate, endDate));
  }

  /** A non-negative quota on a valid range always gives a schedule. */
  lemma ScheduleSucceeds(startDate: Day, endDate: Day, hoursPerWeek: real)
    requires startDate <= endDate && hoursPerWeek >= 0.0
    ensures Schedule(startDate, endDate, hoursPerWeek).Success?
  {
    ScheduleFailure(startDate, endDate, hoursPerWeek);
  }

  /** The dispatch rule: the calculator wins over the formatter, and with
      neither the service raises a configuration error. */
  function Dispatch(service: CalculateWorkingHoursService, dtos: seq<WorkingHoursDto>): (r: Result<Output, Error>)
    ensures service.calculator.Some? ==> r == Success(Number(service.calculator.value(dtos)))
    ensures service.calculator.None? && service.formatter.Some? ==>
      r == Success(Text(service.formatter.value(dtos)))
    ensures r.Failure? <==> service.calculator.None? && service.formatter.None?
    ensures r.Failure? ==> r.error == NoCalculatorOrFormatter
  {
    match service.calculator
    case Some(calculate) => Success(Number(calculate(dtos)))
    case None =>
      match service.formatter
      case Some(format) => Success(Text(format(dtos)))
      case None => Failure(NoCalculatorOrFormatter)
  }

  /** The service entry point. Errors of the range and of the per-day
      calculation come before the configuration error. */
  function Calculate(service: CalculateWorkingHoursService, startDate: Day, endDate: Day, hoursPerWeek: real)
    : (r: Result<Output, Error>)
    ensures startDate > endDate ==> r == Failure(InvalidRange)
    ensures r.Success? ==> startDate <= endDate
    ensures r.Success? ==> service.calculator.Some? || service.formatter.Some?
  {
    var dtos :- Schedule(startDate, endDate, hoursPerWeek);
    Dispatch(service, dtos)
  }

  /** A negative quota over a range holding a weekday fails with the
      negative-hours error before any strategy is consulted. */
  lemma NegativeQuotaFailsFirst(service: CalculateWorkingHoursService, startDate: Day, endDate: Day, hoursPerWeek: real)
    requires startDate <= endDate && hoursPerWeek < 0.0
    requires exists d :: startDate <= d <= endDate && !IsWeekend(d)
    ensures Calculate(service, startDate, endDate, hoursPerWeek) == Failure(NegativeHours)
  {
    ScheduleFailure(startDate, endDate, hoursPerWeek);
  }

  /** With a calculator configured the formatter is never consulted: any two
      formatters give the same answer, the calculator's value on the records. */
  lemma CalculatorWins(calculate: Calculator, f1: Option<Formatter>, f2: Option<Formatter>,
                       startDate: Day, endDate: Day, hoursPerWeek: real)
    ensures Calculate(CalculateWorkingHoursService(Some(calculate), f1), startDate, endDate, hoursPerWeek)
         == Calculate(CalculateWorkingHoursService(Some(calculate), f2), startDate, endDate, hoursPerWeek)
    ensures Schedule(startDate, endDate, hoursPerWeek).Success? ==>
      Calculate(CalculateWorkingHoursService(Some(calculate), f1), startDate, endDate, hoursPerWeek)
        == Success(Number(calculate(Schedule(startDate, endDate, hoursPerWeek).value)))
  {
  }

  /** With only a formatter configured, the answer is the formatted records. */
  lemma FormatterWithoutCalculator(format: Formatter, startDate: Day, endDate: Day, hoursPerWeek: real)
    ensures Schedule(startDate, endDate, hoursPerWeek).Success? ==>
      Calculate(CalculateWorkingHoursService(None, Some(format)), startDate, endDate, hoursPerWeek)
        == Success(Text(format(Schedule(startDate, endDate, hoursPerWeek).value)))
  {
  }

  /** A service with neither strategy fails on every input; on a valid
      schedule the error is the configuration error. */
  lemma NoStrategyAlwaysFails(startDate: Day, endDate: Day, hoursPerWeek: real)
    ensures Calculate(CalculateWorkingHoursService(None, None), startDate, endDate, hoursPerWeek).Failure?
    ensures Schedule(startDate, endDate, hoursPerWeek).Success? ==>
      Calculate(CalculateWorkingHoursService(None, None), startDate, endDate, hoursPerWeek)
        == Failure(NoCalculatorOrFormatter)
  {
  }

  /** `n` copies of `q` added up: `n · q` written as repeated addition, which
      keeps the summing proofs in linear arithmetic. */
  function Times(n: nat, q: real): real {
    if n == 0 then 0.0 else Times(n - 1, q) + q
  }

  /** The dates of the transfer records, in order. */
  function Dates(dtos: seq<WorkingHoursDto>): seq<Day> {
    seq(|dtos|, i requires 0 <= i < |dtos| => dtos[i].date)
  }

  /** Every record carries the daily share `q` on a weekday and zero on a weekend. */
  predicate FollowsWeekdayRule(dtos: seq<WorkingHoursDto>, q: real) {
    forall i :: 0 <= i < |dtos| ==> dtos[i].hours == if IsWeekend(dtos[i].date) then 0.0 else q
  }

  /** Records allotted by the weekday rule with daily share `q` sum to `q`
      added once per working day among their dates. */
  lemma {:induction false} SumOfAllocation(dtos: seq<WorkingHoursDto>, q: real)
    requires FollowsWeekdayRule(dtos, q)
    ensures SumCalculator.Calculate(dtos) == Times(WorkingDayCount(Dates(dtos)), q)
  {
    if |dtos| == 0 {
      assert Dates(dtos) == [];
    } else {
      var front, last := dtos[..|dtos| - 1], dtos[|dtos| - 1];
      var n := WorkingDay(last.date);
      assert SumCalculator.Calculate(front) == Times(WorkingDayCount(Dates(front)), q) by {
        SumOfAllocation(front, q);
      }
      assert WorkingDayCount(Dates(dtos)) == WorkingDayCount(Dates(front)) + n by {
        assert Dates(dtos) == Dates(front) + [last.date];
        WorkingDayCountAppend(Dates(front), [last.date]);
        assert [last.date][1..] == [];
      }
      assert Times(WorkingDayCount(Dates(front)) + n, q) == Times(WorkingDayCount(Dates(front)), q) + last.hours by {
        TimesAdd(WorkingDayCount(Dates(front)), n, q);
      }
    }
  }

  /** Repeated addition is multiplication. */
  lemma {:induction false} TimesIsProduct(n: nat, q: real)
    ensures Times(n, q) == (n as real) * q
  {
    if n > 0 {
      TimesIsProduct(n - 1, q);
      assert ((n - 1) as real) * q + q == (n as real) * q;
    }
  }

  /** No hours added any number of times are no hours. */
  lemma TimesZero(n: nat)
    ensures Times(n, 0.0) == 0.0
  {
    TimesIsProduct(n, 0.0);
  }

  lemma {:induction false} TimesAdd(a: nat, b: nat, q: real)
    ensures Times(a + b, q) == Times(a, q) + Times(b, q)
    decreases b
  {
    if b > 0 {
      TimesAdd(a, b - 1, q);
    }
  }

  /** Five fifths of the quota make the quota, once per week. */
  lemma {:induction false} TimesFifths(weeks: nat, hoursPerWeek: real)
    ensures Times(5 * weeks, hoursPerWeek / 5.0) == Times(weeks, hoursPerWeek)
  {
    if weeks > 0 {
      var q := hoursPerWeek / 5.0;
      TimesFifths(weeks - 1, hoursPerWeek);
      TimesAdd(5 * (weeks - 1), 5, q);
      assert Times(1, q) == q;
      assert Times(2, q) == Times(1, q) + q;
      assert Times(3, q) == Times(2, q) + q;
      assert Times(4, q) == Times(3, q) + q;
      assert Times(5, q) == Times(4, q) + q;
      assert Times(weeks, hoursPerWeek) == Times(weeks - 1, hoursPerWeek) + hoursPerWeek;
    }
  }

  /** In sum mode the answer for a valid schedule is a fifth of the quota
      added once per working day of the range. */
  lemma SumModeTotal(startDate: Day, endDate: Day, hoursPerWeek: real)
    requires Schedule(startDate, endDate, hoursPerWeek).Success?
    ensures Calculate(SumService(), startDate, endDate, hoursPerWeek)
         == Success(Number(Times(WorkingDayCount(DaysFrom(startDate, endDate)), hoursPerWeek / 5.0)))
  {
    SumModeSumsSchedule(startDate, endDate, hoursPerWeek);
    ScheduleTotal(startDate, endDate, hoursPerWeek);
  }

  /** Sum mode answers with the total of the schedule's records. */
  lemma SumModeSumsSchedule(startDate: Day, endDate: Day, hoursPerWeek: real)
    requires Schedule(startDate, endDate, hoursPerWeek).Success?
    ensures Calculate(SumService(), startDate, endDate, hoursPerWeek)
         == Success(Number(SumCalculator.Calculate(Schedule(startDate, endDate, hoursPerWeek).value)))
  {
    CalculatorWins(SumCalculator.Calculate, None, None, startDate, endDate, hoursPerWeek);
  }

  /** The total of a valid schedule's records. */
  lemma ScheduleTotal(startDate: Day, endDate: Day, hoursPerWeek: real)
    requires Schedule(startDate, endDate, hoursPerWeek).Success?
    ensures SumCalculator.Calculate(Schedule(startDate, endDate, hoursPerWeek).value)
         == Times(WorkingDayCount(DaysFrom(startDate, endDate)), hoursPerWeek / 5.0)
  {
    ScheduleFollowsRule(startDate, endDate, hoursPerWeek);
    SumOfAllocation(Schedule(startDate, endDate, hoursPerWeek).value, hoursPerWeek / 5.0);
  }

  /** The records of a valid schedule carry the days of the range and follow
      the weekday rule, in the shape `SumOfAllocation` takes. */
  lemma ScheduleFollowsRule(startDate: Day, endDate: Day, hoursPerWeek: real)
    requires Schedule(startDate, endDate, hoursPerWeek).Success?
    ensures Dates(Schedule(startDate, endDate, hoursPerWeek).value) == DaysFrom(startDate, endDate)
    ensures FollowsWeekdayRule(Schedule(startDate, endDate, hoursPerWeek).value, hoursPerWeek / 5.0)
  {
    var dtos := Schedule(startDate, endDate, hoursPerWeek).value;
    forall i | 0 <= i < |dtos|
      ensures dtos[i].hours == if IsWeekend(dtos[i].date) then 0.0 else hoursPerWeek / 5.0
    {
      assert dtos[i].date == startDate + i;
    }
    var dates, days := Dates(dtos), DaysFrom(startDate, endDate);
    forall i | 0 <= i < |dates|
      ensures dates[i] == days[i]
    {
    }
    assert dates == days;
  }

  /** In sum mode a zero quota gives zero for every valid range. */
  lemma SumModeZeroQuota(startDate: Day, endDate: Day)
    requires startDate <= endDate
    ensures Calculate(SumService(), startDate, endDate, 0.0) == Success(Number(0.0))
  {
    ScheduleSucceeds(startDate, endDate, 0.0);
    SumModeTotal(startDate, endDate, 0.0);
    assert 0.0 / 5.0 == 0.0;
    TimesZero(WorkingDayCount(DaysFrom(startDate, endDate)));
  }

  /** In sum mode any seven consecutive days with a non-negative quota give
      back exactly the quota (Monday to Sunday with 40 gives 8·5 + 0·2 = 40). */
  lemma SumModeWeek(startDate: Day, hoursPerWeek: real)
    requires hoursPerWeek >= 0.0
    ensures Calculate(SumService(), startDate, startDate + 6, hoursPerWeek) == Success(Number(hoursPerWeek))
  {
    ScheduleSucceeds(startDate, startDate + 6, hoursPerWeek);
    SumModeTotal(startDate, startDate + 6, hoursPerWeek);
    WeekHasFiveWorkingDays(startDate);
    TimesFifths(1, hoursPerWeek);
  }

  /** In sum mode a whole number of weeks gives the quota once per week
      (`Times(weeks, q)` is `weeks · q`, see `TimesIsProduct`). */
  lemma SumModeWeeks(startDate: Day, endDate: Day, weeks: nat, hoursPerWeek: real)
    requires weeks >= 1 && hoursPerWeek >= 0.0
    requires endDate == startDate + 7 * weeks - 1
    ensures Calculate(SumService(), startDate, endDate, hoursPerWeek) == Success(Number(Times(weeks, hoursPerWeek)))
  {
    var n := WorkingDayCount(DaysFrom(startDate, endDate));
    assert n == 5 * weeks by {
      WeeksHaveFiveWorkingDaysEach(startDate, weeks);
    }
    assert Calculate(SumService(), startDate, endDate, hoursPerWeek) == Success(Number(Times(n, hoursPerWeek / 5.0))) by {
      ScheduleSucceeds(startDate, endDate, hoursPerWeek);
      SumModeTotal(startDate, endDate, hoursPerWeek);
    }
    assert Times(n, hoursPerWeek / 5.0) == Times(weeks, hoursPerWeek) by {
      TimesFifths(weeks, hoursPerWeek);
    }
  }

  /** The same total as a product: `weeks` whole weeks answer `weeks · h`. */
  lemma SumModeWeeksProduct(startDate: Day, endDate: Day, weeks: nat, hoursPerWeek: real)
    requires weeks >= 1 && hoursPerWeek >= 0.0
    requires endDate == startDate + 7 * weeks - 1
    ensures Calculate(SumService(), startDate, endDate, hoursPerWeek) == Success(Number((weeks as real) * hoursPerWeek))
  {
    SumModeWeeks(startDate, endDate, weeks, hoursPerWeek);
    TimesIsProduct(weeks, hoursPerWeek);
  }

  /** 2024-01-01, a Monday, as a day ordinal. */
  const FirstOfJanuary2024: Day := 19723

  /** Monday 2024-01-01 to Sunday 2024-01-07 at 40 hours a week: five days of
      8 hours, two of 0, and 40 in sum mode. */
  lemma FirstWeekOf2024()
    ensures Weekday(FirstOfJanuary2024) == 1
    ensures Schedule(FirstOfJanuary2024, FirstOfJanuary2024 + 6, 40.0).Success?
    ensures var dtos := Schedule(FirstOfJanuary2024, FirstOfJanuary2024 + 6, 40.0).value;
      |dtos| == 7
      && (forall i :: 0 <= i < 5 ==> dtos[i].hours == 8.0)
      && dtos[5].hours == 0.0 && dtos[6].hours == 0.0
    ensures Calculate(SumService(), FirstOfJanuary2024, FirstOfJanuary2024 + 6, 40.0) == Success(Number(40.0))
  {
    var start := FirstOfJanuary2024;
    NextWeekday(start);
    NextWeekday(start + 1);
    NextWeekday(start + 2);
    NextWeekday(start + 3);
    NextWeekday(start + 4);
    NextWeekday(start + 5);
    SumModeWeek(start, 40.0);
  }

  /** A one-day range on a weekday at 35 hours a week yields one record of 7 hours. */
  lemma SingleWeekdayAt35(d: Day)
    requires !IsWeekend(d)
    ensures Schedule(d, d, 35.0) == Success([WorkingHoursDto(d, 7.0)])
  {
    ScheduleSucceeds(d, d, 35.0);
    var r := Schedule(d, d, 35.0);
    assert |r.value| == 1;
    assert r.value[0] == WorkingHoursDto(d, 7.0);
    assert r.value == [WorkingHoursDto(d, 7.0)];
  }
}

=== FILE: calendar.dfy ===
/** Calendar days as integer ordinals: day 0 is 1970-01-01, a Thursday, and
    the next calendar day of `d` is `d + 1`. */
module Calendar {

  type Day = int

  const Sunday := 0
  const Saturday := 6

  /** Day of the week with Sunday = 0 … Saturday = 6. Dafny's `%` never goes
      negative, so days before 1970 get the right weekday too. */
  function Weekday(d: Day): (w: int)
    ensures 0 <= w < 7
  {
    (d + 4) % 7
  }

  predicate IsWeekend(d: Day) {
    Weekday(d) == Sunday || Weekday(d) == Saturday
  }

  /** The weekday advances by one, wrapping from Saturday to Sunday. */
  lemma NextWeekday(d: Day)
    ensures Weekday(d + 1) == (Weekday(d) + 1) % 7
  {
    var q := (d + 4) / 7;
    assert d + 4 == 7 * q + Weekday(d);
    if Weekday(d) < 6 {
      assert d + 5 == 7 * q + (Weekday(d) + 1);
    } else {
      assert d + 5 == 7 * (q + 1) + 0;
    }
  }

  /** The weekday `k` days later, for `k` below a week, without `%`. */
  lemma WeekdayAfter(d: Day, k: int)
    requires 0 <= k < 7
    ensures Weekday(d + k) == if Weekday(d) + k < 7 then Weekday(d) + k else Weekday(d) + k - 7
  {
    var q := (d + 4) / 7;
    assert d + 4 == 7 * q + Weekday(d);
    if Weekday(d) + k < 7 {
      assert d + k + 4 == 7 * q + (Weekday(d) + k);
    } else {
      assert d + k + 4 == 7 * (q + 1) + (Weekday(d) + k - 7);
    }
  }
}

=== FILE: date_range.dfy ===
/** The inclusive date range value object: construction rejects a start after
    the end, and `GetDays` lists every calendar day from start to end. */
module DateRanges {
  import opened Wrappers
  import opened Errors
  import opened Calendar

  datatype DateRange = DateRange(startDate: Day, endDate: Day) {
    predicate Valid() {
      startDate <= endDate
    }
  }

  /** Construction fails exactly when the start lies after the end; the
      endpoints of a constructed range are the ones given. */
  function NewDateRange(startDate: Day, endDate: Day): (r: Result<DateRange, Error>)
    ensures r.Failure? <==> startDate > endDate
    ensures r.Failure? ==> r.error == InvalidRange
    ensures r.Success? ==> r.value.startDate == startDate && r.value.endDate == endDate
    ensures r.Success? ==> r.value.Valid()
  {
    if startDate > endDate then Failure(InvalidRange)
    else Success(DateRange(startDate, endDate))
  }

  /** Number of iterations of the day loop from `date` up to `end`. */
  function Span(date: Day, end: Day): nat {
    if date <= end then end - date + 1 else 0
  }

  /** The day loop started at `date`: push `date` while `date <= end`, then
      step to the next calendar day. */
  function DaysFrom(date: Day, end: Day): (days: seq<Day>)
    ensures |days| == Span(date, end)
    ensures forall i :: 0 <= i < |days| ==> days[i] == date + i
    decreases Span(date, end)
  {
    if date <= end then [date] + DaysFrom(date + 1, end) else []
  }

  /** Every calendar day of the range, in increasing order, both ends included. */
  function GetDays(range: DateRange): (days: seq<Day>)
    ensures range.Valid() ==> |days| == range.endDate - range.startDate + 1
    ensures range.Valid() ==> days[0] == range.startDate && days[|days| - 1] == range.endDate
    ensures forall i :: 0 < i < |days| ==> days[i] == days[i - 1] + 1
    ensures forall i :: 0 <= i < |days| ==> days[i] == range.startDate + i
    ensures forall i :: 0 <= i < |days| ==> range.startDate <= days[i] <= range.endDate
    ensures forall d :: range.startDate <= d <= range.endDate <==> d in days
  {
    DaysFromCovers(range.startDate, range.endDate);
    DaysFrom(range.startDate, range.endDate)
  }

  /** The day loop visits every day between its bounds. */
  lemma DaysFromCovers(date: Day, end: Day)
    ensures forall d :: date <= d <= end ==> d in DaysFrom(date, end)
  {
    var days := DaysFrom(date, end);
    forall d | date <= d <= end
      ensures d in days
    {
      assert days[d - date] == d;
    }
  }

  /** Consecutive days make the sequence strictly increasing, so no day repeats. */
  lemma {:induction false} DaysStrictlyIncreasing(range: DateRange, i: int, j: int)
    requires 0 <= i < j < |GetDays(range)|
    ensures GetDays(range)[i] < GetDays(range)[j]
  {
    var days := GetDays(range);
    if j == i + 1 {
      assert days[j] == days[j - 1] + 1;
    } else {
      DaysStrictlyIncreasing(range, i, j - 1);
      assert days[j] == days[j - 1] + 1;
    }
  }

  /** A range whose start and end are the same day yields that one day. */
  lemma SingleDayRange(d: Day)
    ensures NewDateRange(d, d).Success?
    ensures GetDays(NewDateRange(d, d).value) == [d]
  {
  }

  /** Splitting the day loop at any day inside it: the days of `[lo, hi]` are
      the days of `[lo, mid]` followed by those of `[mid + 1, hi]`. */
  lemma {:induction false} DaysSplit(lo: Day, mid: Day, hi: Day)
    requires lo - 1 <= mid <= hi
    ensures DaysFrom(lo, hi) == DaysFrom(lo, mid) + DaysFrom(mid + 1, hi)
  {
    var whole, left, right := DaysFrom(lo, hi), DaysFrom(lo, mid), DaysFrom(mid + 1, hi);
    assert |whole| == |left| + |right|;
    forall i | 0 <= i < |whole|
      ensures whole[i] == (left + right)[i]
    {
      if i < |left| {
        assert (left + right)[i] == left[i];
      } else {
        assert (left + right)[i] == right[i - |left|];
      }
    }
  }
}

=== FILE: sum_calculator.dfy ===
/** The summing output strategy: a left fold `0 + h1 + … + hn` over the
    hours of the transfer records. */
module SumCalculator {
  import opened Dtos

  /** The left fold, peeling the last record. */
  function Calculate(dtos: seq<WorkingHoursDto>): real {
    if |dtos| == 0 then 0.0
    else Calculate(dtos[..|dtos| - 1]) + dtos[|dtos| - 1].hours
  }

  /** Records that all carry non-negative hours have a non-negative total. */
  lemma {:induction false} CalculateNonNegative(dtos: seq<WorkingHoursDto>)
    requires forall i :: 0 <= i < |dtos| ==> dtos[i].hours >= 0.0
    ensures Calculate(dtos) >= 0.0
  {
    if |dtos| > 0 {
      CalculateNonNegative(dtos[..|dtos| - 1]);
    }
  }

  /** The total of no records is zero. */
  lemma CalculateEmpty()
    ensures Calculate([]) == 0.0
  {
  }

  /** Reference definition: the same hours added from the right. */
  function SumRight(dtos: seq<WorkingHoursDto>): real {
    if |dtos| == 0 then 0.0 else dtos[0].hours + SumRight(dtos[1..])
  }

  /** The total of a concatenation is the sum of the totals. */
  lemma {:induction false} CalculateAppend(a: seq<WorkingHoursDto>, b: seq<WorkingHoursDto>)
    ensures Calculate(a + b) == Calculate(a) + Calculate(b)
    decreases |b|
  {
    if |b| == 0 {
      assert a + b == a;
    } else {
      var b' := b[..|b| - 1];
      assert (a + b)[..|a + b| - 1] == a + b';
      CalculateAppend(a, b');
    }
  }

  /** The left fold agrees with the right-to-left reference sum. */
  lemma {:induction false} CalculateIsSumRight(dtos: seq<WorkingHoursDto>)
    ensures Calculate(dtos) == SumRight(dtos)
  {
    if |dtos| > 0 {
      CalculateIsSumRight(dtos[1..]);
      CalculateAppend([dtos[0]], dtos[1..]);
      assert [dtos[0]] + dtos[1..] == dtos;
    }
  }

  /** Taking one record out of the sequence takes its hours off the total
      and the record out of the multiset. */
  lemma {:induction false} CalculateRemove(b: seq<WorkingHoursDto>, j: int)
    requires 0 <= j < |b|
    ensures Calculate(b) == Calculate(b[..j] + b[j + 1..]) + b[j].hours
    ensures multiset(b) == multiset(b[..j] + b[j + 1..]) + multiset{b[j]}
  {
    var front, x, back := b[..j], b[j], b[j + 1..];
    assert b == front + [x] + back;
    CalculateAppend(front + [x], back);
    CalculateAppend(front, [x]);
    CalculateAppend(front, back);
    assert [x][..0] == [];
    assert Calculate([x]) == x.hours;
  }

  /** The total does not depend on the order of the records. */
  lemma {:induction false} CalculatePermutation(a: seq<WorkingHoursDto>, b: seq<WorkingHoursDto>)
    requires multiset(a) == multiset(b)
    ensures Calculate(a) == Calculate(b)
    decreases |a|
  {
    if |a| == 0 {
      assert |b| == |multiset(b)| == 0;
    } else {
      var last := a[|a| - 1];
      assert last in multiset(a);
      var j :| 0 <= j < |b| && b[j] == last;
      var a', b' := a[..|a| - 1], b[..j] + b[j + 1..];
      CalculateRemove(a, |a| - 1);
      CalculateRemove(b, j);
      assert a[..|a| - 1] + a[|a|..] == a';
      assert multiset(a') == multiset(a') + multiset{last} - multiset{last};
      assert multiset(b') == multiset(b') + multiset{last} - multiset{last};
      CalculatePermutation(a', b');
    }
  }
}

=== FILE: working_hours.dfy ===
/** The working-hours record of one day, whose constructor refuses negative hours. */
module Hours {
  import opened Wrappers
  import opened Errors
  import opened Calendar

  datatype WorkingHours = WorkingHours(date: Day, hours: real) {
    /** The record invariant the constructor establishes. */
    predicate Valid() {
      hours >= 0.0
    }

    function GetDate(): Day {
      date
    }

    function GetHours(): real {
      hours
    }
  }

  /** Construction succeeds exactly when the hours are non-negative; the record
      built keeps the given date and hours and satisfies the invariant. */
  function NewWorkingHours(date: Day, hours: real): (r: Result<WorkingHours, Error>)
    ensures r.Success? <==> hours >= 0.0
    ensures r.Failure? ==> r.error == NegativeHours
    ensures r.Success? ==> r.value.Valid()
    ensures r.Success? ==> r.value.GetDate() == date && r.value.GetHours() == hours
  {
    if hours < 0.0 then Failure(NegativeHours)
    else Success(WorkingHours(date, hours))
  }
}

/** The transfer record handed to the output strategies: a date and its hours. */
module Dtos {
  import opened Calendar
  import opened Hours

  datatype WorkingHoursDto = WorkingHoursDto(date: Day, hours: real)

  /** Copies each record into a transfer record, element by element, in order. */
  function ToDtos(ws: seq<WorkingHours>): (dtos: seq<WorkingHoursDto>)
    ensures |dtos| == |ws|
    ensures forall i :: 0 <= i < |ws| ==> dtos[i].date == ws[i].date && dtos[i].hours == ws[i].hours
  {
    if |ws| == 0 then []
    else [WorkingHoursDto(ws[0].date, ws[0].hours)] + ToDtos(ws[1..])
  }
}

=== FILE: working_hours_calculator.dfy ===
/** The per-day allocation: each weekday of the range gets a fifth of the
    weekly quota, Saturdays and Sundays get nothing, and every value is
    wrapped in a working-hours record. */
module HoursCalculator {
  import opened Wrappers
  import opened Errors
  import opened Calendar
  import opened DateRanges
  import opened Hours

  /** Hours allotted to one day before the record is built: nothing on a
      Sunday or Saturday, and on each of the five days in between a share
      such that five of them make up the weekly quota. */
  function DailyHours(d: Day, hoursPerWeek: real): (h: real)
    ensures Weekday(d) == Sunday || Weekday(d) == Saturday ==> h == 0.0
    ensures Sunday < Weekday(d) < Saturday ==> 5.0 * h == hoursPerWeek
    ensures hoursPerWeek >= 0.0 ==> 0.0 <= h <= hoursPerWeek
  {
    if IsWeekend(d) then 0.0 else hoursPerWeek / 5.0
  }

  /** Does the sequence hold a Monday-to-Friday day? */
  predicate HasWorkingDay(days: seq<Day>) {
    exists i :: 0 <= i < |days| && !IsWeekend(days[i])
  }

  /** Builds one record per day, left to right, stopping at the first record
      whose construction fails. It fails exactly when the quota is negative
      and some day is a weekday; otherwise record i carries day i with a fifth
      of the quota on a weekday and zero on a weekend. */
  function CalculateDays(days: seq<Day>, hoursPerWeek: real): (r: Result<seq<WorkingHours>, Error>)
    ensures r.Failure? <==> hoursPerWeek < 0.0 && HasWorkingDay(days)
    ensures r.Failure? ==> r.error == NegativeHours
    ensures r.Success? ==> |r.value| == |days|
    ensures r.Success? ==> forall i :: 0 <= i < |days| ==>
      && r.value[i].date == days[i]
      && (IsWeekend(days[i]) ==> r.value[i].hours == 0.0)
      && (!IsWeekend(days[i]) ==> r.value[i].hours == hoursPerWeek / 5.0)
      && r.value[i].Valid()
  {
    if |days| == 0 then Success([])
    else
      var first :- NewWorkingHours(days[0], DailyHours(days[0], hoursPerWeek));
      var rest :- CalculateDays(days[1..], hoursPerWeek);
      assert HasWorkingDay(days) ==> !IsWeekend(days[0]) || HasWorkingDay(days[1..]) by {
        if HasWorkingDay(days) {
          var i :| 0 <= i < |days| && !IsWeekend(days[i]);
          if i > 0 {
            assert days[1..][i - 1] == days[i];
          }
        }
      }
      Success([first] + rest)
  }

  /** The calculation over a date range. */
  function Calculate(range: DateRange, hoursPerWeek: real): (r: Result<seq<WorkingHours>, Error>)
    ensures r.Failure? <==>
      hoursPerWeek < 0.0 && exists d :: range.startDate <= d <= range.endDate && !IsWeekend(d)
    ensures r.Failure? ==> r.error == NegativeHours
    ensures r.Success? ==> |r.value| == |GetDays(range)|
    ensures r.Success? ==> forall i :: 0 <= i < |r.value| ==>
      && r.value[i].date == range.startDate + i
      && (IsWeekend(range.startDate + i) ==> r.value[i].hours == 0.0)
      && (!IsWeekend(range.startDate + i) ==> r.value[i].hours == hoursPerWeek / 5.0)
      && r.value[i].Valid()
  {
    RangeHasWorkingDay(range);
    CalculateDays(GetDays(range), hoursPerWeek)
  }

  /** The days of a range hold a weekday exactly when some day between its
      endpoints is a weekday. */
  lemma RangeHasWorkingDay(range: DateRange)
    ensures HasWorkingDay(GetDays(range)) <==>
      exists d :: range.startDate <= d <= range.endDate && !IsWeekend(d)
  {
    var days := GetDays(range);
    if HasWorkingDay(days) {
      var i :| 0 <= i < |days| && !IsWeekend(days[i]);
      assert range.startDate <= days[i] <= range.endDate;
    }
    if exists d :: range.startDate <= d <= range.endDate && !IsWeekend(d) {
      var d :| range.startDate <= d <= range.endDate && !IsWeekend(d);
      assert days[d - range.startDate] == d;
    }
  }

  /** A non-negative quota always succeeds and yields non-negative hours. */
  lemma NonNegativeQuotaSucceeds(range: DateRange, hoursPerWeek: real)
    requires hoursPerWeek >= 0.0
    ensures Calculate(range, hoursPerWeek).Success?
    ensures forall w :: w in Calculate(range, hoursPerWeek).value ==> w.hours >= 0.0
  {
  }

  /** A zero quota gives every day zero hours. */
  lemma ZeroQuotaAllZero(range: DateRange)
    ensures Calculate(range, 0.0).Success?
    ensures forall w :: w in Calculate(range, 0.0).value ==> w.hours == 0.0
  {
    var ws := Calculate(range, 0.0).value;
    forall w | w in ws
      ensures w.hours == 0.0
    {
      var i :| 0 <= i < |ws| && ws[i] == w;
    }
  }

  /** A range made only of weekend days succeeds even with a negative quota,
      every record carrying zero hours. */
  lemma WeekendOnlyRangeSucceeds(range: DateRange, hoursPerWeek: real)
    requires forall d :: range.startDate <= d <= range.endDate ==> IsWeekend(d)
    ensures Calculate(range, hoursPerWeek).Success?
    ensures forall w :: w in Calculate(range, hoursPerWeek).value ==> w.hours == 0.0
  {
    var ws := Calculate(range, hoursPerWeek).value;
    forall w | w in ws
      ensures w.hours == 0.0
    {
      var i :| 0 <= i < |ws| && ws[i] == w;
      assert range.startDate + i in GetDays(range);
    }
  }

  /** A single Saturday yields one record with zero hours, whatever the quota. */
  lemma SaturdayAlone(d: Day, hoursPerWeek: real)
    requires Weekday(d) == Saturday
    ensures Calculate(DateRange(d, d), hoursPerWeek) == Success([WorkingHours(d, 0.0)])
  {
    assert IsWeekend(d);
    var r := Calculate(DateRange(d, d), hoursPerWeek);
    assert r.Success?;
    assert |r.value| == 1 && r.value[0] == WorkingHours(d, 0.0);
    assert r.value == [WorkingHours(d, 0.0)];
  }
}

/** How many working days a stretch of days holds, and the fact that every
    seven consecutive days hold exactly five. */
module WorkingDays {
  import opened Calendar
  import opened DateRanges

  /** One for a Monday-to-Friday day, zero for a weekend day. */
  function WorkingDay(d: Day): nat {
    if IsWeekend(d) then 0 else 1
  }

  /** Number of Monday-to-Friday days in the sequence. */
  function WorkingDayCount(days: seq<Day>): nat {
    if |days| == 0 then 0
    else WorkingDay(days[0]) + WorkingDayCount(days[1..])
  }

  /** The count of a concatenation is the sum of the counts. */
  lemma {:induction false} WorkingDayCountAppend(a: seq<Day>, b: seq<Day>)
    ensures WorkingDayCount(a + b) == WorkingDayCount(a) + WorkingDayCount(b)
  {
    if |a| > 0 {
      assert (a + b)[1..] == a[1..] + b;
      WorkingDayCountAppend(a[1..], b);
    } else {
      assert a + b == b;
    }
  }

  /** One step of the day loop contributes the first day's indicator. */
  lemma CountFirstDay(lo: Day, hi: Day)
    requires lo <= hi
    ensures WorkingDayCount(DaysFrom(lo, hi)) == WorkingDay(lo) + WorkingDayCount(DaysFrom(lo + 1, hi))
  {
    var days := DaysFrom(lo, hi);
    assert days[0] == lo;
    assert days[1..] == DaysFrom(lo + 1, hi);
  }

  /** Any seven consecutive calendar days, whatever day they start on, hold
      exactly five working days. */
  lemma WeekHasFiveWorkingDays(start: Day)
    ensures WorkingDayCount(DaysFrom(start, start + 6)) == 5
  {
    assert WorkingDay(start) + WorkingDay(start + 1) + WorkingDay(start + 2) + WorkingDay(start + 3)
         + WorkingDay(start + 4) + WorkingDay(start + 5) + WorkingDay(start + 6) == 5 by {
      WeekdayAfter(start, 1);
      WeekdayAfter(start, 2);
      WeekdayAfter(start, 3);
      WeekdayAfter(start, 4);
      WeekdayAfter(start, 5);
      WeekdayAfter(start, 6);
    }
    assert WorkingDayCount(DaysFrom(start, start + 6))
        == WorkingDay(start) + WorkingDay(start + 1) + WorkingDay(start + 2) + WorkingDay(start + 3)
         + WorkingDay(start + 4) + WorkingDay(start + 5) + WorkingDay(start + 6) by {
      CountFirstDay(start, start + 6);
      CountFirstDay(start + 1, start + 6);
      CountFirstDay(start + 2, start + 6);
      CountFirstDay(start + 3, start + 6);
      CountFirstDay(start + 4, start + 6);
      CountFirstDay(start + 5, start + 6);
      CountFirstDay(start + 6, start + 6);
      assert DaysFrom(start + 7, start + 6) == [];
    }
  }

  /** A range of `weeks` whole weeks holds five working days per week. */
  lemma {:induction false} WeeksHaveFiveWorkingDaysEach(start: Day, weeks: nat)
    ensures WorkingDayCount(DaysFrom(start, start + 7 * weeks - 1)) == 5 * weeks
  {
    if weeks > 0 {
      var mid := start + 7 * (weeks - 1) - 1;
      DaysSplit(start, mid, start + 7 * weeks - 1);
      WorkingDayCountAppend(DaysFrom(start, mid), DaysFrom(mid + 1, start + 7 * weeks - 1));
      WeeksHaveFiveWorkingDaysEach(start, weeks - 1);
      WeekHasFiveWorkingDays(mid + 1);
    } else {
      assert DaysFrom(start, start - 1) == [];
    }
  }
}

=== FILE: working_hours_repository.dfy ===
/** The in-memory store of working-hours records keyed by their date: saving
    replaces any record of the same date, and lookups by date return the
    stored record or nothing. The store is an explicit value. */
module Repository {
  import opened Wrappers
  import opened Calendar
  import opened Hours

  datatype WorkingHoursRepository = WorkingHoursRepository(data: map<Day, WorkingHours>)

  /** The record stored under `date`, if any. */
  function FindByDate(repository: WorkingHoursRepository, date: Day): (found: Option<WorkingHours>)
    ensures found.Some? <==> date in repository.data
    ensures found.Some? ==> found.value == repository.data[date]
  {
    if date in repository.data then Some(repository.data[date]) else None
  }

  /** A new store holds nothing: every lookup finds nothing. */
  function NewRepository(): (repository: WorkingHoursRepository)
    ensures forall date :: FindByDate(repository, date) == None
  {
    WorkingHoursRepository(map[])
  }

  /** Saving a record makes the lookup of its date return it and leaves every
      other date's lookup as it was. */
  function Save(repository: WorkingHoursRepository, workingHours: WorkingHours): (saved: WorkingHoursRepository)
    ensures FindByDate(saved, workingHours.GetDate()) == Some(workingHours)
    ensures forall date :: date != workingHours.GetDate() ==> FindByDate(saved, date) == FindByDate(repository, date)
  {
    WorkingHoursRepository(repository.data[workingHours.GetDate() := workingHours])
  }

  /** Two saves for the same date: the later record wins. */
  lemma LastWriteWins(repository: WorkingHoursRepository, first: WorkingHours, second: WorkingHours)
    requires first.date == second.date
    ensures FindByDate(Save(Save(repository, first), second), first.date) == Some(second)
    ensures forall date :: date != first.date ==>
      FindByDate(Save(Save(repository, first), second), date) == FindByDate(repository, date)
  {
  }

  /** Saving the same record again changes nothing. */
  lemma SaveIdempotent(repository: WorkingHoursRepository, workingHours: WorkingHours)
    ensures Save(Save(repository, workingHours), workingHours) == Save(repository, workingHours)
  {
  }

  /** Saves of records with different dates commute. */
  lemma SavesOfDifferentDatesCommute(repository: WorkingHoursRepository, a: WorkingHours, b: WorkingHours)
    requires a.date != b.date
    ensures Save(Save(repository, a), b) == Save(Save(repository, b), a)
  {
    var left, right := Save(Save(repository, a), b), Save(Save(repository, b), a);
    assert left.data == right.data;
  }
}

=== FILE: wrappers.dfy ===
/** Failure-compatible wrappers: `Option` for a lookup that may find nothing,
    `Result` for an operation that may raise one of the system's errors. */
module Wrappers {

  datatype Option<+T> = None | Some(value: T)

  datatype Result<+R, +E> = Success(value: R) | Failure(error: E) {

    predicate IsFailure() {
      Failure?
    }

    function PropagateFailure<U>(): Result<U, E>
      requires Failure?
    {
      Failure(error)
    }

    function Extract(): R
      requires Success?
    {
      value
    }
  }
}

/** The errors the calculation path raises, one per `throw` site. */
module Errors {

  datatype Error =
    | InvalidRange             // the start date lies after the end date
    | NegativeHours            // a working-hours record was given negative hours
    | NoCalculatorOrFormatter  // the service was built without any output strategy
}
